=== FILE: README.md ===
# SDL_Calc editing core in Dafny

SDL_Calc is a desktop calculator. It has a 36-button keypad, a scrolling history display and keyboard shortcuts with long-press alternatives. This project models the part of `SDLCalc.py` that decides what the calculator shows and holds. That part is a state machine over one `Calculator`: the expression buffer, the history of expression/result records, the scroll offset, the "just calculated" and "last was error" flags, the full-screen mode and the table of key-press times.

Every operation is a pure function from one calculator state to the next. The modules are:

- `Prelude`: the Python built-ins the code relies on: `max`/`min`, slicing with negative indices (`PySlice`, `DropLast` for `s[:-1]`) and `str.isdigit`.
- `CalcState`: the `Calc` record, the initial state, the `Evaluator` oracle (`Ok(text) | Err | Unprintable`) and the `Effect` of an input. An effect either exits the process, or gives the next state and whether the main loop keeps running.
- `Display`: the scroll window. It covers the lines `draw_display` builds, its offset clamp and visible slice, `scroll_up`/`scroll_down`, `adjust_scroll_to_show_input` and `toggle_fullscreen`.
- `Evaluation`: the bookkeeping of `calculate`, with evaluation itself left to the oracle.
- `Editing`: the buffer edits that buttons and keys share.
- `ButtonInput`: `handle_button`, branch for branch.
- `Layout`: `build_layout_compact` as a loop-building method, and the inclusive mouse hit-test. The hit-test is proved to agree with a closed-form grid lookup.
- `Keyboard`: the key-down and key-up branches of `main`, with tick counts passed in as parameters.
- `EventLoop`: one event, one drained batch of events, and the invariant every reachable calculator keeps, whichever of its three kinds of answer the evaluator gives.

The evaluator is a parameter of type `string -> EvalResult`. The model covers what `calculate` does with the answer. It does not cover how the answer is computed.

## Model

| member | source | states |
|---|---|---|
| `Prelude.DropLast` | SDLCalc.py:360 | `s[:-1]` removes exactly the last element of a non-empty sequence and leaves the empty one empty |
| `Prelude.PySlice` | SDLCalc.py:301 | Python slicing agrees with plain sub-sequence selection whenever the bounds are in range, and is empty when the end is not past the start |
| `CalcState.Init` | SDLCalc.py:195-205 | a new calculator has an empty buffer and history, offset 0, both flags clear, normal mode and no recorded key presses |
| `Display.AllLines` | SDLCalc.py:287-293 | the display has one line per history entry, plus the input line exactly when the buffer is non-empty; each line is cut to 40 (60 in full-screen mode) characters plus "..." |
| `Display.MaxVisibleLines` | SDLCalc.py:266-273 | six lines fit in the normal window; in full-screen mode the count is the floor of (height − 12) / 18, the largest number of 18-pixel lines within the height less a 12-pixel margin, and is non-negative from a height of 12 |
| `Display.DisplayLine` | SDLCalc.py:289 | a line within the character budget is shown unchanged; a longer line is shown as its first `maxChars` characters followed by the three characters `...` |
| `Display.ClampOffset` | SDLCalc.py:295-297 | the clamped offset lies in [0, max(0, total − maxVisible)], equals the old offset when that was already in range, and otherwise is the nearer end of the range |
| `Display.DrawDisplay` | SDLCalc.py:280-297 | a redraw replaces only the scroll offset, by its clamp into [0, max(0, total − maxVisible)], so an in-range offset stays where it is; with no display font loaded it returns before the clamp and changes nothing |
| `Display.VisibleLines` | SDLCalc.py:295-301 | for a non-negative window size, the drawn lines are the contiguous run of display lines starting at the clamped offset, with length min(maxVisible, total − offset) |
| `Display.ScrollUp` | SDLCalc.py:318-319 | scrolling up lowers a positive offset by exactly one, never goes below zero, and touches nothing else |
| `Display.ScrollDown` | SDLCalc.py:321-322 | scrolling down raises the offset by exactly one, with no upper bound, and touches nothing else |
| `Display.ScrollUpUndoesScrollDown` | SDLCalc.py:318-322 | from any non-negative offset, scroll-down followed by scroll-up restores the calculator |
| `Display.ScrollDownUndoesScrollUp` | SDLCalc.py:318-322 | from a positive offset, scroll-up followed by scroll-down restores the calculator |
| `Display.AdjustScrollToShowInput` | SDLCalc.py:324-333 | the offset becomes max(0, total − visible), where total counts the history plus a non-empty buffer and visible is 6 normally or 15 in full-screen mode; only the offset changes |
| `Display.AdjustShowsInput` | SDLCalc.py:324-333 | after the adjustment the last display line (the input line, or the last history line when the buffer is empty) is the last line drawn, whenever the drawn window is at least as tall as the one the adjustment assumes |
| `Display.AdjustIsStableUnderDraw` | SDLCalc.py:324-333 | in the normal window the adjusted offset is one that the next redraw's clamp leaves unchanged |
| `Display.ToggleFullscreen` | SDLCalc.py:459-463 | toggling flips the mode; leaving full-screen mode re-aims the offset at the input line of a 6-line window, entering it keeps the offset |
| `Display.ToggleTwice` | SDLCalc.py:459-463 | entering and then leaving full-screen mode restores the mode and changes only the scroll offset, to the input-showing position |
| `Evaluation.Calculate` | SDLCalc.py:424-457 | an empty buffer changes nothing. Otherwise the history keeps its old entries and then receives the old buffer followed by "= result" or "= Error". A result that cannot be turned into text instead adds three entries: the buffer, the buffer again, then "= Error". A result replaces the buffer and sets only the just-calculated flag. Either kind of error empties the buffer and sets only the error flag. The offset becomes max(0, history + 1 − visible) |
| `Evaluation.CalculateOkShowsResult` | SDLCalc.py:443-449 | after a successful calculation with a non-empty result, the offset is exactly the one that shows the result line as the bottom line |
| `Evaluation.CalculateErrOvershoot` | SDLCalc.py:450-457 | after either kind of error in normal mode, the offset is one past the last scroll position once the history fills the window; the next redraw clamps it back to where the input-showing adjustment would put it |
| `Editing.ClearAll` | SDLCalc.py:349-354 | clear-all empties buffer and history, resets the offset to 0 and clears both flags, keeping mode and key presses |
| `Editing.ClearEntry` | SDLCalc.py:355-358 | clear-entry empties the buffer and clears both flags, and changes nothing else (history and offset stay) |
| `Editing.Backspace` | SDLCalc.py:359-362 | backspace removes exactly the last character of a non-empty buffer, leaves an empty buffer empty, clears both flags and changes nothing else |
| `Editing.AppendToken` | SDLCalc.py:365-368 | appending keeps the old buffer as a prefix, adds exactly the token after it and clears both flags |
| `Editing.AppendOnly` | SDLCalc.py:551-553 | the flag-preserving long-press append keeps the old buffer as a prefix, adds exactly the token and changes nothing else |
| `Editing.ButtonConstant` | SDLCalc.py:369-382 | the constant buttons replace the buffer right after a result and append to it otherwise, clearing both flags |
| `Editing.KeyReplaceOrAppend` | SDLCalc.py:536-542 | a keyboard digit replaces the buffer after a result or an error (clearing both flags) and is appended otherwise |
| `Editing.BackspacesUndoAppend` | SDLCalc.py:359-362 | pressing backspace once per character of an appended token restores the buffer the token was appended to |
| `ButtonInput.HandleButton` | SDLCalc.py:335-422 | `OFF` and only `OFF` exits. Only `=` and `C` can change the history. Mode and key presses never change. A digit typed after an error becomes the whole buffer, and only the error flag changes besides |
| `ButtonInput.ButtonAppendsToken` | SDLCalc.py:365-422 | every non-control button appends exactly its token from an independent table (`√`→`sqrt(`, `x²`→`**2`, `xʸ`→`**`, `log`→`log10(`, `ln`→`log(`, `sin`/`cos`/`tan`→name+`(`, `1/x`→`**(-1)`, `mod`→`%`, the rest themselves) and clears both flags; the old buffer stays a prefix |
| `ButtonInput.FunctionButtonAppends` | SDLCalc.py:383-418 | each function button appends exactly the token the independent table assigns to it and clears both flags |
| `ButtonInput.PlainButtonAppends` | SDLCalc.py:365-368 | operators and every value with no branch of its own (digits when no error is pending, brackets, `.`, `!`) append themselves and clear both flags |
| `ButtonInput.SquareRootTokens` | SDLCalc.py:383-386 | `√` and `sq` append `sqrt(` |
| `ButtonInput.SquareTokens` | SDLCalc.py:387-390 | `x²` and `x2` append `**2` |
| `ButtonInput.PowerTokens` | SDLCalc.py:391-394 | `xʸ` and `xy` append `**` |
| `ButtonInput.LogTokens` | SDLCalc.py:395-402 | `log` appends `log10(` and `ln` appends `log(` |
| `ButtonInput.SineTokens` | SDLCalc.py:403-406 | `sin` appends `sin(` |
| `ButtonInput.CosineTokens` | SDLCalc.py:403-406 | `cos` appends `cos(` |
| `ButtonInput.TangentTokens` | SDLCalc.py:403-406 | `tan` appends `tan(` |
| `ButtonInput.InverseTokens` | SDLCalc.py:407-410 | `1/x` appends `**(-1)` |
| `ButtonInput.ModTokens` | SDLCalc.py:415-418 | `mod` appends `%` |
| `ButtonInput.ButtonClears` | SDLCalc.py:349-358 | `C` yields the empty buffer, empty history, offset 0 and cleared flags; `CE` empties the buffer and clears the flags only |
| `ButtonInput.ButtonBackspace` | SDLCalc.py:359-362 | both `⌫` and `Bk` remove exactly the last character (or leave "" as ""), keep history and offset, and clear the flags |
| `ButtonInput.ButtonDigitAfterError` | SDLCalc.py:341-345 | after an error a digit button makes the buffer exactly that digit and clears only the error flag; history and the just-calculated flag stay |
| `ButtonInput.ButtonConstants` | SDLCalc.py:369-382 | `π`, `pi` and `e` put their constant text in place of a just-calculated result, and after the buffer otherwise; both flags are cleared and nothing else changes |
| `ButtonInput.ButtonEqualsAndGraph` | SDLCalc.py:347-364 | `=` is exactly one calculation; the graph toggle (`Gr` or `Graph`) leaves every modelled field unchanged |
| `Layout.BuildLayoutCompact` | SDLCalc.py:207-262 | the built list has 36 buttons. Button i sits in grid cell (i/5, i%5) for i < 30 and (i−30, 5) otherwise, at x = 3 + 52·col and y = 125 + 32·row, size 50×30, with the caption and value of its table entry; the empty sixth-column slot produces no button |
| `Layout.BuildMainGrid` | SDLCalc.py:240-245 | the first loop builds 30 buttons, button i in row i/5 and column i%5 of the five-column table with that cell's rectangle, caption and value |
| `Layout.FindHit` | SDLCalc.py:500-504 | the scan returns the first button whose rectangle, edges included, contains the point, and none exactly when no button contains it |
| `Layout.ContainsIffCellAt` | SDLCalc.py:243-262 | a layout button contains a point exactly when the grid arithmetic places the point in that button's cell |
| `Layout.HitTestMatchesGrid` | SDLCalc.py:500-504 | on the built layout the handler's first-match scan returns exactly the grid cell under the point, or nothing in a gap or outside the grid |
| `Layout.ButtonsDisjoint` | SDLCalc.py:209-262 | no point lies in two layout buttons even with inclusive edges, so the first hit is the only hit |
| `Layout.LayoutBelowDisplay` | SDLCalc.py:207-262 | every button lies inside the 320×320 window and below the display box |
| `Keyboard.OnKeyDown` | SDLCalc.py:505-542 | a repeat changes nothing. Otherwise the press time is recorded for that key, the rest of the table staying as it was. Escape and only Escape stops the main loop. A key without a key-down action, the long-press keys among them, does nothing but record its press |
| `Keyboard.OnKeyUp` | SDLCalc.py:544-649 | a key-up with no recorded press changes nothing. Otherwise the recorded press is removed and the rest of the table stays. Only a recorded `=` key can change the history, and the mode never changes. A key without a key-up action does nothing but forget its press, and every key-up except a short `=` changes only the buffer and the flags besides forgetting the press |
| `Keyboard.KeyUpEdit` | SDLCalc.py:551-647 | every key-up action other than the calculation of a short `=` leaves everything but the buffer and the two flags as it was |
| `Keyboard.KeyUpTokens` | SDLCalc.py:551-647 | a press counts as long when it lasted strictly more than 500 ms. The exact text each key-up appends: long `0` `)`, `6` `^`, `8` `*`, `9` `(`, `=` `+`; F1–F3 `sqrt(`/`**2`/`log10(` when long and `sin(`/`cos(`/`tan(` when short; long F4 `log(`; F6–F9 `sqrt(`, `**2`, `log10(`, `log(` |
| `Keyboard.KeyUpFlags` | SDLCalc.py:551-647 | long `0`, `6` and `9` keep both flags as they were; long `8`, long `=` and the keys F1–F4 and F6–F9 clear both flags |
| `Keyboard.KeyUpShortPress` | SDLCalc.py:551-631 | a short press of `0`/`6`/`8`/`9` replaces the buffer after a result or an error and appends otherwise, clearing both flags; a short F4 does the same with the text of π; a short press of `=` is one calculation plus forgetting the press |
| `Keyboard.KeyDownTyping` | SDLCalc.py:532-542 | key-down `+ - * / .` append their character and clear the flags. Key-down `1 2 3 4 5 7` replace the buffer after a result or an error and append otherwise, leaving both flags clear. Nothing else changes besides recording the press |
| `Keyboard.KeyDownCommands` | SDLCalc.py:512-531 | Backspace trims, Delete clears all and Return calculates, each after recording the press |
| `Keyboard.KeyDownViewCommands` | SDLCalc.py:512-531 | Space toggles the mode and the arrow keys scroll, each after recording the press |
| `EventLoop.OnMouseDown` | SDLCalc.py:497-504 | a click does nothing in full-screen mode or off every button; otherwise it acts as the first button containing the point |
| `EventLoop.Step` | SDLCalc.py:493-649 | a quit event stops the loop without changing the calculator, unknown events change nothing, a click goes to the mouse handler, a key press to the key-down handler and a key release to the key-up handler, and only a click (on `OFF`) can exit |
| `EventLoop.ClickReachesGridButton` | SDLCalc.py:497-504 | on the real layout in normal mode a click acts as the button of the grid cell under the pointer, and a click in a gap does nothing |
| `EventLoop.InitSatisfiesInv` | SDLCalc.py:195-205 | the initial calculator satisfies the invariant |
| `EventLoop.LogExtend` | SDLCalc.py:443-452 | appending the entries of one calculation to a history of whole records gives a history of whole records ending in a result line |
| `EventLoop.CalculatePreservesInv` | SDLCalc.py:424-457 | calculating keeps the invariant: non-negative offset, a history of whole records (expression and "= …" line, or expression twice and "= Error"), error flag only right after "= Error", never both flags |
| `EventLoop.HandleButtonPreservesInv` | SDLCalc.py:335-422 | every button except `OFF` keeps the invariant |
| `EventLoop.KeyDownPreservesInv` | SDLCalc.py:505-542 | every key-down keeps the invariant |
| `EventLoop.KeyUpPreservesInv` | SDLCalc.py:544-649 | every key-up keeps the invariant, whatever the press duration |
| `EventLoop.StepPreservesInv` | SDLCalc.py:493-649 | every event keeps the invariant, whatever the evaluator answers |
| `EventLoop.DrawPreservesInv` | SDLCalc.py:295-297 | the per-frame clamp keeps the invariant |
| `EventLoop.Batch` | SDLCalc.py:494-649 | draining no events changes nothing; a batch containing a quit event ends with the loop stopped (unless it exits) |
| `EventLoop.QuitDoesNotEndBatch` | SDLCalc.py:494-496 | a quit event only clears the running flag: the events drained after it are handled exactly as without it |
| `EventLoop.BatchPreservesInv` | SDLCalc.py:494-649 | any sequence of events drained in one pass keeps the invariant |

`calculate` rewrites only factorials and function names (SDLCalc.py:430-437), so the `^` that a long press of `6` appends reaches the evaluator unchanged; Python reads it as bitwise exclusive-or on integers.

Three behaviours of the code are worth knowing:

- A digit button pressed right after a result is appended to the result (SDLCalc.py:419-422). A digit key replaces it (SDLCalc.py:536-540).
- A calculation whose result exists but cannot be turned into text fails after the buffer has been recorded. An example is an integer with more than 4300 digits, such as `9**9999`. The exception handler then records the buffer a second time (SDLCalc.py:443-444, 450-452). So the history is not always made of pairs. The invariant describes it as a sequence of two- and three-entry records.
- Some long presses (`0`, `6`, `9`) append without clearing the flags (SDLCalc.py:552-553, 562-563, 584-585). So after an error the error flag can survive a non-empty buffer. The invariant therefore ties the error flag to the last history line, not to the buffer.

## Left out

- Library loading, the foreign-function declarations and every SDL/TTF call (SDLCalc.py:8-118): foreign plumbing with no logic.
- Rendering: `Button.draw`, the drawing half of `draw_display`, colours and fonts. The model keeps only the state that `draw_display` changes, plus which lines it would draw.
- `open_any_font` and its font-path fallback: filesystem probing. Whether a display font exists is the `hasFont` parameter of `Display.DrawDisplay`.
- The rewrites and `eval` inside `calculate` (factorial expansion, name substitution, Python evaluation, float rounding). They are the `Evaluator` parameter, which returns the result's text, an error, or a result whose conversion to text raises.
- `str(math.pi)` and `str(math.e)`: these are the constants `PiText` and `EText`, with the text Python prints for them.
- The `show_graph` flag and `graph_func`: nothing reads them. `Gr`/`Graph` therefore leaves the model state unchanged.
- `sys.exit` is the `Exit` effect.
- `SDL_GetTicks` and the frame delay: tick counts arrive with the key events. The duration is a difference of unbounded integers, as in Python, so no 32-bit wrap-around is modelled.
- The outer `while running` loop and the redraw between batches: `EventLoop.Batch` models one drained batch, and `Display.DrawDisplay` models the redraw's effect on the state.
- `Prelude.IsDigits`: it accepts only the ASCII digits. Python's `str.isdigit` also accepts other Unicode digits (superscripts, for example). No button value is such a string.
- Display.VisibleLines: its contract describes the window only when the window size is non-negative. A full-screen window less than 12 pixels high gives a negative size, and Python's negative slice indices then apply. The body models that case through `PySlice`, but no contract describes it. The program's window is created 320 pixels high.
- Display.AdjustShowsInput: requires the drawn window to be at least as tall as the 6 or 15 lines the adjustment assumes. With a shorter drawn window, the last line can fall below it.

=== FILE: button_input.dfy ===
/** `Calculator.handle_button`: what one on-screen button value does to the
    calculator. Values arrive as the button's `value` string. */
module ButtonInput {
  import opened Prelude
  import opened CalcState
  import opened Editing
  import opened Evaluation

  /** `handle_button`, branch for branch: `OFF` exits, a digit after an
      error starts a new buffer, and every other value is an edit. */
  function HandleButton(c: Calc, value: string, eval: Evaluator): (r: Effect)
    ensures value == "OFF" <==> r.Exit?
    ensures r.Run? ==> r.running
    ensures r.Run? ==> r.next.fullscreen == c.fullscreen && r.next.keyPressTimes == c.keyPressTimes
    ensures r.Run? && r.next.history != c.history ==> value == "=" || value == "C"
    ensures value != "OFF" && c.lastWasError && IsDigits(value) ==>
              r.next == c.(expression := value, lastWasError := false)
  {
    if value == "OFF" then Exit
    else if c.lastWasError && IsDigits(value) then
      Run(c.(expression := value, lastWasError := false), true)
    else
      Run(CommandEdit(c, value, eval), true)
  }

  /** The branches of `handle_button` for the command values, falling through
      to the typing branches. */
  function CommandEdit(c: Calc, value: string, eval: Evaluator): Calc {
    if value == "=" then Calculate(c, eval)
    else if value == "C" then ClearAll(c)
    else if value == "CE" then ClearEntry(c)
    else if value == "\U{232B}" || value == "Bk" then Backspace(c)
    else if value == "Gr" || value == "Graph" then c
    else TypingEdit(c, value)
  }

  /** The branches of `handle_button` that type into the buffer. */
  function TypingEdit(c: Calc, value: string): Calc {
    if value in {"+", "-", "*", "/", "%"} then AppendToken(c, value)
    else if value == "\U{03C0}" || value == "pi" then ButtonConstant(c, PiText)
    else if value == "e" then ButtonConstant(c, EText)
    else if value == "\U{221A}" || value == "sq" then AppendToken(c, "sqrt(")
    else if value == "x\U{00B2}" || value == "x2" then AppendToken(c, "**2")
    else if value == "x\U{02B8}" || value == "xy" then AppendToken(c, "**")
    else if value == "log" then AppendToken(c, "log10(")
    else if value == "ln" then AppendToken(c, "log(")
    else if value in {"sin", "cos", "tan"} then AppendToken(c, value + "(")
    else if value == "1/x" then AppendToken(c, "**(-1)")
    else if value == "!" then AppendToken(c, "!")
    else if value == "mod" then AppendToken(c, "%")
    else AppendToken(c, value)
  }

  /** A value with a character other than a digit is not a digit string. */
  lemma NotDigits(value: string, k: nat)
    requires k < |value| && !IsAsciiDigit(value[k])
    ensures !IsDigits(value)
  {
  }

  /** Values whose button does something other than append a token. */
  predicate IsControlValue(value: string) {
    value in {"OFF", "=", "C", "CE", "\U{232B}", "Bk", "Gr", "Graph", "\U{03C0}", "pi", "e"}
  }

  /** The token each appending button adds, as a table independent of the
      order of the branches in `handle_button`. */
  function ButtonToken(value: string): string {
    match value
    case "\U{221A}" => "sqrt("
    case "sq" => "sqrt("
    case "x\U{00B2}" => "**2"
    case "x2" => "**2"
    case "x\U{02B8}" => "**"
    case "xy" => "**"
    case "log" => "log10("
    case "ln" => "log("
    case "sin" => "sin("
    case "cos" => "cos("
    case "tan" => "tan("
    case "1/x" => "**(-1)"
    case "mod" => "%"
    case _ => value
  }

  /** The function buttons: those whose token differs from their value. */
  predicate IsFunctionValue(value: string) {
    value in {"\U{221A}", "sq", "x\U{00B2}", "x2", "x\U{02B8}", "xy", "log", "ln",
              "sin", "cos", "tan", "1/x", "mod"}
  }

  /** Every button that is not a control button (and is not a digit typed
      right after an error) appends exactly its token to the buffer and
      clears both flags; the old buffer is always a prefix of the new one. */
  lemma ButtonAppendsToken(c: Calc, value: string, eval: Evaluator)
    requires !IsControlValue(value)
    requires !(c.lastWasError && IsDigits(value))
    ensures HandleButton(c, value, eval) == Run(AppendToken(c, ButtonToken(value)), true)
    ensures c.expression <= HandleButton(c, value, eval).next.expression
  {
    if IsFunctionValue(value) {
      FunctionButtonAppends(c, value, eval);
    } else {
      PlainButtonAppends(c, value, eval);
    }
  }

  /** `√` opens a square root. */
  lemma SquareRootTokens(c: Calc, eval: Evaluator)
    ensures HandleButton(c, "\U{221A}", eval) == Run(AppendToken(c, "sqrt("), true)
    ensures HandleButton(c, "sq", eval) == Run(AppendToken(c, "sqrt("), true)
  {
    NotDigits("\U{221A}", 0);
    NotDigits("sq", 0);
  }

  /** `x²` squares. */
  lemma SquareTokens(c: Calc, eval: Evaluator)
    ensures HandleButton(c, "x\U{00B2}", eval) == Run(AppendToken(c, "**2"), true)
    ensures HandleButton(c, "x2", eval) == Run(AppendToken(c, "**2"), true)
  {
    NotDigits("x\U{00B2}", 0);
    NotDigits("x2", 0);
  }

  /** `xʸ` raises to a power. */
  lemma PowerTokens(c: Calc, eval: Evaluator)
    ensures HandleButton(c, "x\U{02B8}", eval) == Run(AppendToken(c, "**"), true)
    ensures HandleButton(c, "xy", eval) == Run(AppendToken(c, "**"), true)
  {
    NotDigits("x\U{02B8}", 0);
    NotDigits("xy", 0);
  }

  /** `log` is the decimal and `ln` the natural logarithm. */
  lemma LogTokens(c: Calc, eval: Evaluator)
    ensures HandleButton(c, "log", eval) == Run(AppendToken(c, "log10("), true)
    ensures HandleButton(c, "ln", eval) == Run(AppendToken(c, "log("), true)
  {
    NotDigits("log", 0);
    NotDigits("ln", 0);
  }

  /** The sine button opens a call of `sin`. */
  lemma SineTokens(c: Calc, eval: Evaluator)
    ensures HandleButton(c, "sin", eval) == Run(AppendToken(c, "sin("), true)
  {
    NotDigits("sin", 0);
  }

  /** The cosine button opens a call of `cos`. */
  lemma CosineTokens(c: Calc, eval: Evaluator)
    ensures HandleButton(c, "cos", eval) == Run(AppendToken(c, "cos("), true)
  {
    NotDigits("cos", 0);
  }

  /** The tangent button opens a call of `tan`. */
  lemma TangentTokens(c: Calc, eval: Evaluator)
    ensures HandleButton(c, "tan", eval) == Run(AppendToken(c, "tan("), true)
  {
    NotDigits("tan", 0);
  }

  /** `1/x` raises to the power -1. */
  lemma InverseTokens(c: Calc, eval: Evaluator)
    ensures HandleButton(c, "1/x", eval) == Run(AppendToken(c, "**(-1)"), true)
  {
    NotDigits("1/x", 1);
  }

  /** `mod` is Python's remainder operator. */
  lemma ModTokens(c: Calc, eval: Evaluator)
    ensures HandleButton(c, "mod", eval) == Run(AppendToken(c, "%"), true)
  {
    NotDigits("mod", 0);
  }

  /** Each function button appends the token the table gives it. */
  lemma FunctionButtonAppends(c: Calc, value: string, eval: Evaluator)
    requires IsFunctionValue(value)
    ensures HandleButton(c, value, eval) == Run(AppendToken(c, ButtonToken(value)), true)
  {
    SquareRootTokens(c, eval);
    SquareTokens(c, eval);
    PowerTokens(c, eval);
    LogTokens(c, eval);
    SineTokens(c, eval);
    CosineTokens(c, eval);
    TangentTokens(c, eval);
    InverseTokens(c, eval);
    ModTokens(c, eval);
  }

  /** Operators, brackets, digits and every unknown value append themselves. */
  lemma PlainButtonAppends(c: Calc, value: string, eval: Evaluator)
    requires !IsControlValue(value) && !IsFunctionValue(value)
    requires !(c.lastWasError && IsDigits(value))
    ensures HandleButton(c, value, eval) == Run(AppendToken(c, value), true)
    ensures ButtonToken(value) == value
  {
    assert HandleButton(c, value, eval) == Run(TypingEdit(c, value), true);
  }

  /** `C` resets everything but the mode and the recorded key presses;
      `CE` empties the buffer and clears the flags but keeps history and scroll. */
  lemma ButtonClears(c: Calc, eval: Evaluator)
    ensures HandleButton(c, "C", eval) ==
            Run(Calc("", [], 0, false, false, c.fullscreen, c.keyPressTimes), true)
    ensures HandleButton(c, "CE", eval) ==
            Run(c.(expression := "", justCalculated := false, lastWasError := false), true)
  {
    NotDigits("C", 0);
    NotDigits("CE", 0);
  }

  /** Both backspace values remove exactly the last character (an empty buffer
      stays empty) and leave the history alone. */
  lemma ButtonBackspace(c: Calc, value: string, eval: Evaluator)
    requires value == "\U{232B}" || value == "Bk"
    ensures var r := HandleButton(c, value, eval).next;
            && (c.expression == "" ==> r.expression == "")
            && (c.expression != "" ==> r.expression + [c.expression[|c.expression| - 1]] == c.expression)
            && r.history == c.history && r.scrollOffset == c.scrollOffset
            && !r.justCalculated && !r.lastWasError
  {
    NotDigits(value, 0);
  }

  /** A digit typed right after an error starts a new buffer holding just that
      digit; only the error flag changes besides (in particular the history
      and the just-calculated flag stay). */
  lemma ButtonDigitAfterError(c: Calc, d: char, eval: Evaluator)
    requires c.lastWasError && IsAsciiDigit(d)
    ensures HandleButton(c, [d], eval) == Run(c.(expression := [d], lastWasError := false), true)
  {
  }

  /** The constant buttons (`π` or `pi`, and `e`) replace a just-calculated
      result and append otherwise; both flags are cleared and nothing else changes. */
  lemma ButtonConstants(c: Calc, eval: Evaluator)
    ensures HandleButton(c, "\U{03C0}", eval) == Run(ButtonConstant(c, PiText), true)
    ensures HandleButton(c, "pi", eval) == Run(ButtonConstant(c, PiText), true)
    ensures HandleButton(c, "e", eval) == Run(ButtonConstant(c, EText), true)
    ensures var r := HandleButton(c, "\U{03C0}", eval).next;
            r.expression == (if c.justCalculated then PiText else c.expression + PiText)
            && !r.justCalculated && !r.lastWasError
    ensures var r := HandleButton(c, "e", eval).next;
            r.expression == (if c.justCalculated then EText else c.expression + EText)
            && !r.justCalculated && !r.lastWasError
  {
    NotDigits("\U{03C0}", 0);
    NotDigits("pi", 0);
    NotDigits("e", 0);
    assert HandleButton(c, "\U{03C0}", eval).next == ButtonConstant(c, PiText);
    assert HandleButton(c, "pi", eval).next == ButtonConstant(c, PiText);
    assert HandleButton(c, "e", eval).next == ButtonConstant(c, EText);
  }

  /** `=` is exactly one calculation, and the graph toggle changes nothing
      the model keeps. */
  lemma ButtonEqualsAndGraph(c: Calc, eval: Evaluator)
    ensures HandleButton(c, "=", eval) == Run(Calculate(c, eval), true)
    ensures HandleButton(c, "Gr", eval) == Run(c, true)
    ensures HandleButton(c, "Graph", eval) == Run(c, true)
  {
    NotDigits("=", 0);
    NotDigits("Gr", 0);
    NotDigits("Graph", 0);
  }
}

=== FILE: calc_state.dfy ===
/** The calculator's editable state (the fields of `Calculator` that the
    editing logic reads or writes) and the shapes shared by every transition. */
module CalcState {

  /** One calculator. `history` holds expression/result records,
      `scrollOffset` is the index of the first displayed line, and
      `keyPressTimes` maps a key code to the tick count of its last key-down. */
  datatype Calc = Calc(
    expression: string,
    history: seq<string>,
    scrollOffset: int,
    justCalculated: bool,
    lastWasError: bool,
    fullscreen: bool,
    keyPressTimes: map<int, int>)

  /** The state `Calculator.__init__` builds. */
  function Init(): (c: Calc)
    ensures c.expression == "" && c.history == [] && c.scrollOffset == 0
    ensures !c.justCalculated && !c.lastWasError && !c.fullscreen
    ensures c.keyPressTimes == map[]
  {
    Calc("", [], 0, false, false, false, map[])
  }

  /** What the expression evaluator made of a buffer: the text of its result;
      an exception of any kind before anything is recorded; or a result that
      exists but whose conversion to text raises once the buffer has already
      been recorded (an integer beyond Python's digit limit for `str`, such
      as the value of `9**9999`). */
  datatype EvalResult = Ok(text: string) | Err | Unprintable

  /** The evaluator itself is outside the model; transitions receive it. */
  type Evaluator = string -> EvalResult

  /** The outcome of one input: the process ends (`sys.exit`), or the state
      moves on and the main loop keeps (or stops) running. */
  datatype Effect = Run(next: Calc, running: bool) | Exit

  /** The text of `str(math.pi)` and `str(math.e)`. */
  const PiText: string := "3.141592653589793"
  const EText: string := "2.718281828459045"
}

=== FILE: display.dfy ===
/** The scroll window of the history display: which lines exist, how many fit,
    how `draw_display` clamps the offset, and the scrolling operations. */
module Display {
  import opened Prelude
  import opened CalcState

  /** Lines shown at once by `draw_display`: six in the normal window, and in
      full-screen mode as many 18-pixel lines as fit below a 12-pixel margin
      (Python `//`, which for the positive divisor agrees with Dafny's `/`). */
  function MaxVisibleLines(fullscreen: bool, height: int): (r: int)
    ensures !fullscreen ==> r == 6
    ensures fullscreen ==> 18 * r <= height - 12 < 18 * (r + 1)
    ensures fullscreen && height >= 12 ==> r >= 0
  {
    if fullscreen then (height - 12) / 18 else 6
  }

  /** The window size `adjust_scroll_to_show_input` and `calculate` assume. */
  function ScrollTarget(fullscreen: bool): int {
    if fullscreen then 15 else 6
  }

  /** Character budget per displayed line. */
  function MaxChars(fullscreen: bool): nat {
    if fullscreen then 60 else 40
  }

  /** A line as displayed: cut to `maxChars` characters plus an ellipsis when longer. */
  function DisplayLine(line: string, maxChars: nat): (r: string)
    ensures |line| <= maxChars ==> r == line
    ensures |line| > maxChars ==> |r| == maxChars + 3 && line[..maxChars] <= r && r[maxChars..] == "..."
  {
    if |line| > maxChars then line[..maxChars] + "..." else line
  }

  /** Number of display lines: the history plus the input line when it is not empty. */
  function TotalLines(c: Calc): nat {
    |c.history| + (if c.expression != "" then 1 else 0)
  }

  /** Every display line, top to bottom: history entries, then the input line. */
  function AllLines(c: Calc): (lines: seq<string>)
    ensures |lines| == TotalLines(c)
    ensures forall i :: 0 <= i < |c.history| ==> lines[i] == DisplayLine(c.history[i], MaxChars(c.fullscreen))
    ensures c.expression != "" ==> lines[|lines| - 1] == DisplayLine(c.expression, MaxChars(c.fullscreen))
  {
    var m := MaxChars(c.fullscreen);
    var past := seq(|c.history|, i requires 0 <= i < |c.history| => DisplayLine(c.history[i], m));
    if c.expression != "" then past + [DisplayLine(c.expression, m)] else past
  }

  /** The clamp of `draw_display`: the offset is forced into [0, max(0, total - maxVisible)]. */
  function ClampOffset(offset: int, total: int, maxVisible: int): (r: int)
    ensures 0 <= r <= Max(0, total - maxVisible)
    ensures 0 <= offset <= Max(0, total - maxVisible) ==> r == offset
    ensures offset < 0 ==> r == 0
    ensures offset > Max(0, total - maxVisible) ==> r == Max(0, total - maxVisible)
  {
    Max(0, Min(offset, Max(0, total - maxVisible)))
  }

  /** The state effect of one `draw_display`: the offset is clamped, unless no
      display font is loaded, in which case the function returns before the clamp. */
  function DrawDisplay(c: Calc, height: int, hasFont: bool): (r: Calc)
    ensures !hasFont ==> r == c
    ensures hasFont ==> 0 <= r.scrollOffset <= Max(0, TotalLines(c) - MaxVisibleLines(c.fullscreen, height))
    ensures hasFont ==> r.scrollOffset == ClampOffset(c.scrollOffset, TotalLines(c), MaxVisibleLines(c.fullscreen, height))
    ensures r == c.(scrollOffset := r.scrollOffset)
  {
    if !hasFont then c
    else c.(scrollOffset := ClampOffset(c.scrollOffset, TotalLines(c), MaxVisibleLines(c.fullscreen, height)))
  }

  /** The lines `draw_display` renders: the slice starting at the clamped offset
      and ending after at most `maxVisible` lines. */
  function VisibleLines(c: Calc, height: int): (lines: seq<string>)
    ensures var all := AllLines(c);
            var v := MaxVisibleLines(c.fullscreen, height);
            var start := ClampOffset(c.scrollOffset, |all|, v);
            v >= 0 ==> |lines| == Min(v, |all| - start) && lines == all[start..start + |lines|]
  {
    var all := AllLines(c);
    var v := MaxVisibleLines(c.fullscreen, height);
    var start := ClampOffset(c.scrollOffset, |all|, v);
    PySlice(all, start, Min(start + v, |all|))
  }

  /** `scroll_up`: one line towards the top, never below zero. */
  function ScrollUp(c: Calc): (r: Calc)
    ensures r.scrollOffset >= 0
    ensures c.scrollOffset >= 1 ==> r.scrollOffset == c.scrollOffset - 1
    ensures c.scrollOffset < 1 ==> r.scrollOffset == 0
    ensures r == c.(scrollOffset := r.scrollOffset)
  {
    c.(scrollOffset := Max(0, c.scrollOffset - 1))
  }

  /** `scroll_down`: one line towards the bottom, with no upper bound (the next
      `draw_display` clamps it). */
  function ScrollDown(c: Calc): (r: Calc)
    ensures r.scrollOffset == c.scrollOffset + 1
    ensures r == c.(scrollOffset := r.scrollOffset)
  {
    c.(scrollOffset := c.scrollOffset + 1)
  }

  /** Scrolling up undoes scrolling down from any non-negative offset. */
  lemma ScrollUpUndoesScrollDown(c: Calc)
    requires c.scrollOffset >= 0
    ensures ScrollUp(ScrollDown(c)) == c
  {
  }

  /** Scrolling down undoes scrolling up whenever scrolling up was not stopped at zero. */
  lemma ScrollDownUndoesScrollUp(c: Calc)
    requires c.scrollOffset >= 1
    ensures ScrollDown(ScrollUp(c)) == c
  {
  }

  /** `adjust_scroll_to_show_input`: scroll so that the last line is the
      bottom line of a `ScrollTarget`-line window. */
  function AdjustScrollToShowInput(c: Calc): (r: Calc)
    ensures r.scrollOffset == Max(0, TotalLines(c) - ScrollTarget(c.fullscreen))
    ensures r == c.(scrollOffset := r.scrollOffset)
  {
    var visible := ScrollTarget(c.fullscreen);
    var total := TotalLines(c);
    if total > visible then c.(scrollOffset := total - visible)
    else c.(scrollOffset := 0)
  }

  /** After the adjustment the last line (the input line, or the last
      history line when the buffer is empty) is the last line drawn, as long
      as the drawn window is at least as tall as the one the adjustment
      assumed (always so in the normal window, and in full-screen mode from a
      height of 282 pixels). */
  lemma AdjustShowsInput(c: Calc, height: int)
    requires TotalLines(c) > 0
    requires MaxVisibleLines(c.fullscreen, height) >= ScrollTarget(c.fullscreen)
    ensures var lines := VisibleLines(AdjustScrollToShowInput(c), height);
            |lines| > 0 && lines[|lines| - 1] == AllLines(c)[|AllLines(c)| - 1]
    ensures c.expression != "" ==>
              var lines := VisibleLines(AdjustScrollToShowInput(c), height);
              |lines| > 0 && lines[|lines| - 1] == DisplayLine(c.expression, MaxChars(c.fullscreen))
  {
    var a := AdjustScrollToShowInput(c);
    var all := AllLines(a);
    assert all == AllLines(c);
    var v := MaxVisibleLines(c.fullscreen, height);
    var start := ClampOffset(a.scrollOffset, |all|, v);
    assert start + Min(v, |all| - start) == |all|;
  }

  /** In the normal window the offset chosen by the adjustment is one that
      `draw_display` leaves where it is. */
  lemma AdjustIsStableUnderDraw(c: Calc, height: int)
    requires !c.fullscreen
    ensures DrawDisplay(AdjustScrollToShowInput(c), height, true) == AdjustScrollToShowInput(c)
  {
  }

  /** `toggle_fullscreen`: flip the mode, and when returning to the normal
      window bring the input line back into view. */
  function ToggleFullscreen(c: Calc): (r: Calc)
    ensures r.fullscreen == !c.fullscreen
    ensures c.fullscreen ==> r.scrollOffset == Max(0, TotalLines(c) - 6)
    ensures !c.fullscreen ==> r.scrollOffset == c.scrollOffset
    ensures r == c.(fullscreen := r.fullscreen, scrollOffset := r.scrollOffset)
  {
    var d := c.(fullscreen := !c.fullscreen);
    if !d.fullscreen then AdjustScrollToShowInput(d) else d
  }

  /** Entering and leaving full-screen mode restores the mode and only
      re-aims the scroll at the input line. */
  lemma ToggleTwice(c: Calc)
    requires !c.fullscreen
    ensures ToggleFullscreen(ToggleFullscreen(c)) == AdjustScrollToShowInput(c)
  {
  }
}

=== FILE: editing.dfy ===
/** The buffer edits that on-screen buttons and keys share: clearing,
    trimming one character, appending a token and replacing a finished result. */
module Editing {
  import opened Prelude
  import opened CalcState

  /** "Clear all" (button `C`, key Delete): empty buffer, empty history, top
      of the display, no pending result or error. */
  function ClearAll(c: Calc): (r: Calc)
    ensures r.expression == "" && r.history == [] && r.scrollOffset == 0
    ensures !r.justCalculated && !r.lastWasError
    ensures r.fullscreen == c.fullscreen && r.keyPressTimes == c.keyPressTimes
  {
    c.(expression := "", history := [], scrollOffset := 0,
       justCalculated := false, lastWasError := false)
  }

  /** "Clear entry" (button `CE`): empty buffer and no pending result or error;
      the history and the scroll stay. */
  function ClearEntry(c: Calc): (r: Calc)
    ensures r.expression == "" && !r.justCalculated && !r.lastWasError
    ensures r == c.(expression := "", justCalculated := false, lastWasError := false)
  {
    ClearAll(c).(history := c.history, scrollOffset := c.scrollOffset)
  }

  /** Backspace (button `⌫`, key Backspace): the last character of the buffer
      goes, an empty buffer stays empty, and the flags are cleared. */
  function Backspace(c: Calc): (r: Calc)
    ensures c.expression == "" ==> r.expression == ""
    ensures c.expression != "" ==> r.expression + [c.expression[|c.expression| - 1]] == c.expression
    ensures !r.justCalculated && !r.lastWasError
    ensures r == c.(expression := r.expression, justCalculated := false, lastWasError := false)
  {
    c.(expression := DropLast(c.expression), justCalculated := false, lastWasError := false)
  }

  /** Append a token to the buffer and clear both flags. */
  function AppendToken(c: Calc, token: string): (r: Calc)
    ensures c.expression <= r.expression && r.expression[|c.expression|..] == token
    ensures !r.justCalculated && !r.lastWasError
    ensures r == c.(expression := r.expression, justCalculated := false, lastWasError := false)
  {
    c.(expression := c.expression + token, justCalculated := false, lastWasError := false)
  }

  /** Append a token and leave both flags as they were (some long presses do this). */
  function AppendOnly(c: Calc, token: string): (r: Calc)
    ensures c.expression <= r.expression && r.expression[|c.expression|..] == token
    ensures r == c.(expression := r.expression)
  {
    c.(expression := c.expression + token)
  }

  /** The on-screen constant buttons (`π`, `e`): right after a result the
      constant replaces the buffer, otherwise it is appended; flags cleared. */
  function ButtonConstant(c: Calc, text: string): (r: Calc)
    ensures c.justCalculated ==> r.expression == text
    ensures !c.justCalculated ==> r.expression == c.expression + text
    ensures r == c.(expression := r.expression, justCalculated := false, lastWasError := false)
  {
    if c.justCalculated then c.(expression := text, justCalculated := false, lastWasError := false)
    else AppendToken(c, text)
  }

  /** The keyboard's digit entry: after a result or an error the token
      replaces the buffer and clears both flags, otherwise it is appended. */
  function KeyReplaceOrAppend(c: Calc, token: string): (r: Calc)
    ensures (c.justCalculated || c.lastWasError) ==> r.expression == token
    ensures !(c.justCalculated || c.lastWasError) ==> r.expression == c.expression + token
    ensures !r.justCalculated && !r.lastWasError
    ensures r == c.(expression := r.expression, justCalculated := false, lastWasError := false)
  {
    if c.justCalculated || c.lastWasError then
      c.(expression := token, justCalculated := false, lastWasError := false)
    else
      c.(expression := c.expression + token)
  }

  /** Backspace pressed `n` times. */
  function Backspaces(c: Calc, n: nat): Calc
    decreases n
  {
    if n == 0 then c else Backspaces(Backspace(c), n - 1)
  }

  /** Pressing backspace once per character of an appended token restores the buffer. */
  lemma {:induction false} BackspacesUndoAppend(c: Calc, token: string)
    ensures Backspaces(AppendToken(c, token), |token|) == AppendToken(c, "")
    decreases |token|
  {
    if |token| > 0 {
      var shorter := token[..|token| - 1];
      assert (c.expression + token)[..|c.expression + token| - 1] == c.expression + shorter;
      assert Backspace(AppendToken(c, token)) == AppendToken(c, shorter);
      BackspacesUndoAppend(c, shorter);
    }
  }
}

=== FILE: evaluation.dfy ===
/** The bookkeeping of `Calculator.calculate`: what happens to the history,
    the buffer, the flags and the scroll once the evaluator has answered. The
    textual rewrites and the evaluation itself are the `Evaluator` parameter. */
module Evaluation {
  import opened Prelude
  import opened CalcState
  import opened Display

  /** The history entries one calculation of `expr` adds. A result that
      cannot be turned into text fails after the buffer has been appended, so
      the exception handler appends the buffer a second time. */
  function Record(expr: string, e: EvalResult): seq<string> {
    match e
    case Ok(text) => [expr, "= " + text]
    case Err => [expr, "= Error"]
    case Unprintable => [expr, expr, "= Error"]
  }

  /** `calculate`. An empty buffer is left alone. Otherwise the buffer and the
      result line are appended to the history; a result replaces the buffer
      and marks it as just calculated, an error empties the buffer and marks
      the error. Either way the scroll is aimed one line past the history. */
  function Calculate(c: Calc, eval: Evaluator): (r: Calc)
    ensures c.expression == "" ==> r == c
    ensures c.expression != "" ==>
              && |r.history| == |c.history| + (if eval(c.expression).Unprintable? then 3 else 2)
              && r.history[..|c.history|] == c.history
              && r.history[|c.history|] == c.expression
              && r.scrollOffset == Max(0, |r.history| + 1 - ScrollTarget(c.fullscreen))
    ensures c.expression != "" && eval(c.expression).Ok? ==>
              && r.history[|c.history| + 1] == "= " + eval(c.expression).text
              && r.expression == eval(c.expression).text
              && r.justCalculated && !r.lastWasError
    ensures c.expression != "" && eval(c.expression).Err? ==>
              && r.history[|c.history| + 1] == "= Error"
              && r.expression == ""
              && !r.justCalculated && r.lastWasError
    ensures c.expression != "" && eval(c.expression).Unprintable? ==>
              && r.history[|c.history| + 1] == c.expression
              && r.history[|c.history| + 2] == "= Error"
              && r.expression == ""
              && !r.justCalculated && r.lastWasError
    ensures r.fullscreen == c.fullscreen && r.keyPressTimes == c.keyPressTimes
  {
    if c.expression == "" then c
    else
      var answer := eval(c.expression);
      var history := c.history + Record(c.expression, answer);
      var offset := Max(0, |history| + 1 - ScrollTarget(c.fullscreen));
      match answer
      case Ok(text) =>
        c.(history := history, expression := text, scrollOffset := offset,
           justCalculated := true, lastWasError := false)
      case _ =>
        c.(history := history, expression := "", scrollOffset := offset,
           justCalculated := false, lastWasError := true)
  }

  /** After a successful calculation with a non-empty result the scroll is
      exactly where `adjust_scroll_to_show_input` would put it: the result is
      the bottom line of the window. */
  lemma CalculateOkShowsResult(c: Calc, eval: Evaluator)
    requires c.expression != ""
    requires eval(c.expression).Ok? && eval(c.expression).text != ""
    ensures AdjustScrollToShowInput(Calculate(c, eval)) == Calculate(c, eval)
  {
  }

  /** After a failed calculation the buffer is empty, so the offset overshoots
      the last scroll position by one line as soon as the history fills the
      normal window; the next clamp of `draw_display` pulls it back to the
      last scroll position. */
  lemma CalculateErrOvershoot(c: Calc, eval: Evaluator, height: int)
    requires c.expression != "" && !eval(c.expression).Ok? && !c.fullscreen
    ensures var r := Calculate(c, eval);
            && (|r.history| >= 6 ==> r.scrollOffset == |r.history| - 6 + 1)
            && DrawDisplay(r, height, true).scrollOffset == Max(0, |r.history| - 6)
            && DrawDisplay(r, height, true) == AdjustScrollToShowInput(r)
  {
  }
}

=== FILE: event_loop.dfy ===
/** One pass of the main loop over one event, and the invariant every
    reachable calculator keeps. */
module EventLoop {
  import opened Prelude
  import opened CalcState
  import opened Display
  import opened Editing
  import opened Evaluation
  import opened ButtonInput
  import opened Layout
  import opened Keyboard

  /** The events the main loop reacts to; tick counts come with the key events. */
  datatype Event =
    | Quit
    | MouseDown(x: int, y: int)
    | KeyPress(key: int, repeat: bool, pressedAt: int)
    | KeyRelease(key: int, releasedAt: int)
    | Other

  /** A mouse click: ignored in full-screen mode, otherwise it reaches the
      first button whose rectangle (edges included) holds the point. */
  function OnMouseDown(c: Calc, buttons: seq<Button>, x: int, y: int, eval: Evaluator): (r: Effect)
    ensures c.fullscreen ==> r == Run(c, true)
    ensures FindHit(buttons, x, y).None? ==> r == Run(c, true)
    ensures !c.fullscreen && FindHit(buttons, x, y).Some? ==>
              r == HandleButton(c, buttons[FindHit(buttons, x, y).value].value, eval)
  {
    if c.fullscreen then Run(c, true)
    else
      match FindHit(buttons, x, y)
      case None => Run(c, true)
      case Some(i) => HandleButton(c, buttons[i].value, eval)
  }

  /** The effect of one event. */
  function Step(c: Calc, buttons: seq<Button>, e: Event, eval: Evaluator): (r: Effect)
    ensures e.Quit? ==> r == Run(c, false)
    ensures e.Other? ==> r == Run(c, true)
    ensures r.Exit? ==> e.MouseDown?
    ensures e.MouseDown? ==> r == OnMouseDown(c, buttons, e.x, e.y, eval)
    ensures e.KeyPress? ==> r == OnKeyDown(c, e.key, e.repeat, e.pressedAt, eval)
    ensures e.KeyRelease? ==> r == Run(OnKeyUp(c, e.key, e.releasedAt, eval), true)
  {
    match e
    case Quit => Run(c, false)
    case MouseDown(x, y) => OnMouseDown(c, buttons, x, y, eval)
    case KeyPress(key, repeat, t) => OnKeyDown(c, key, repeat, t, eval)
    case KeyRelease(key, t) => Run(OnKeyUp(c, key, t, eval), true)
    case Other => Run(c, true)
  }

  /** On the real layout a click in normal mode acts exactly as the button of
      the grid cell under the pointer, and a click in a gap does nothing. */
  lemma ClickReachesGridButton(c: Calc, buttons: seq<Button>, x: int, y: int, eval: Evaluator)
    requires IsLayout(buttons) && !c.fullscreen
    ensures CellAt(x, y).None? ==> Step(c, buttons, MouseDown(x, y), eval) == Run(c, true)
    ensures CellAt(x, y).Some? ==>
              Step(c, buttons, MouseDown(x, y), eval) ==
              HandleButton(c, LayoutButton(CellAt(x, y).value).value, eval)
  {
    HitTestMatchesGrid(buttons, x, y);
  }

  /** A history line that records an evaluator's answer. */
  predicate IsResultLine(line: string) {
    |line| >= 2 && line[..2] == "= "
  }

  /** A history made of whole calculation records, oldest first: each is an
      expression followed by its result line, or, when the result could not
      be turned into text, the expression twice followed by "= Error". */
  predicate IsLog(h: seq<string>)
    decreases |h|
  {
    || h == []
    || (|h| >= 2 && IsResultLine(h[|h| - 1]) && IsLog(h[..|h| - 2]))
    || (|h| >= 3 && h[|h| - 1] == "= Error" && h[|h| - 2] == h[|h| - 3] && IsLog(h[..|h| - 3]))
  }

  /** What holds of every calculator the program can reach through the
      evaluator answers the model knows: the offset is never negative; the
      history is a sequence of whole records; the error flag means the last
      result was an error; the two flags are never both set; and a
      just-calculated result has a history entry behind it. */
  predicate Inv(c: Calc) {
    && c.scrollOffset >= 0
    && IsLog(c.history)
    && (c.lastWasError ==> |c.history| >= 2 && c.history[|c.history| - 1] == "= Error")
    && (c.justCalculated ==> |c.history| >= 2)
    && !(c.justCalculated && c.lastWasError)
  }

  lemma InitSatisfiesInv()
    ensures Inv(Init())
  {
  }

  /** One more record keeps a history whole, and the last entry of a
      non-empty record is its result line. */
  lemma LogExtend(h: seq<string>, expr: string, e: EvalResult)
    requires IsLog(h)
    ensures IsLog(h + Record(expr, e))
    ensures IsResultLine((h + Record(expr, e))[|h + Record(expr, e)| - 1])
  {
    var rec := Record(expr, e);
    var h' := h + rec;
    assert h'[..|h'| - |rec|] == h;
    match e
    case Ok(text) =>
      assert ("= " + text)[..2] == "= ";
    case Err =>
    case Unprintable =>
      assert h'[|h'| - 2] == h'[|h'| - 3] == expr;
  }

  lemma {:induction false} CalculatePreservesInv(c: Calc, eval: Evaluator)
    requires Inv(c)
    ensures Inv(Calculate(c, eval))
  {
    if c.expression != "" {
      assert Calculate(c, eval).history == c.history + Record(c.expression, eval(c.expression));
      LogExtend(c.history, c.expression, eval(c.expression));
    }
  }

  /** Every button keeps the invariant. */
  lemma {:induction false} HandleButtonPreservesInv(c: Calc, value: string, eval: Evaluator)
    requires Inv(c) && value != "OFF"
    ensures Inv(HandleButton(c, value, eval).next)
  {
    if !(c.lastWasError && IsDigits(value)) && value == "=" {
      CalculatePreservesInv(c, eval);
    }
  }

  /** Every key-up keeps the invariant. */
  lemma {:induction false} KeyUpPreservesInv(c: Calc, key: int, now: int, eval: Evaluator)
    requires Inv(c)
    ensures Inv(OnKeyUp(c, key, now, eval))
  {
    var r := OnKeyUp(c, key, now, eval);
    if key in c.keyPressTimes && key == KeyEquals {
      CalculatePreservesInv(c, eval);
    } else {
      assert r.history == c.history;
      SameHistoryInv(c, r);
    }
  }

  /** An edit that leaves the history alone keeps the invariant as long as it
      keeps the offset non-negative and sets no flag the old state did not
      justify. */
  lemma SameHistoryInv(c: Calc, r: Calc)
    requires Inv(c) && r.history == c.history && r.scrollOffset >= 0
    requires r.lastWasError ==> c.lastWasError
    requires r.justCalculated ==> c.justCalculated
    requires !(r.justCalculated && r.lastWasError)
    ensures Inv(r)
  {
  }

  /** Every key-down keeps the invariant. */
  lemma {:induction false} KeyDownPreservesInv(c: Calc, key: int, repeat: bool, now: int, eval: Evaluator)
    requires Inv(c)
    ensures Inv(OnKeyDown(c, key, repeat, now, eval).next)
  {
    if !repeat && key == KeyReturn {
      CalculatePreservesInv(c.(keyPressTimes := c.keyPressTimes[key := now]), eval);
    }
  }

  /** Every event keeps the invariant, whatever the evaluator answers. */
  lemma {:induction false} StepPreservesInv(c: Calc, buttons: seq<Button>, e: Event, eval: Evaluator)
    requires Inv(c)
    ensures Step(c, buttons, e, eval).Run? ==> Inv(Step(c, buttons, e, eval).next)
  {
    match e
    case Quit =>
    case Other =>
    case MouseDown(x, y) =>
      if !c.fullscreen && FindHit(buttons, x, y).Some? {
        var v := buttons[FindHit(buttons, x, y).value].value;
        if v != "OFF" {
          HandleButtonPreservesInv(c, v, eval);
        }
      }
    case KeyPress(key, repeat, t) =>
      KeyDownPreservesInv(c, key, repeat, t, eval);
    case KeyRelease(key, t) =>
      KeyUpPreservesInv(c, key, t, eval);
  }

  /** The end-of-frame redraw keeps the invariant too. */
  lemma DrawPreservesInv(c: Calc, height: int, hasFont: bool)
    requires Inv(c)
    ensures Inv(DrawDisplay(c, height, hasFont))
  {
  }

  /** The events drained by one pass of the poll loop, in order. A stop
      request does not end the pass (later events are still handled); the
      process exit of the `OFF` button does. */
  function Batch(c: Calc, buttons: seq<Button>, events: seq<Event>, eval: Evaluator): (r: Effect)
    ensures events == [] ==> r == Run(c, true)
    ensures r.Run? && Quit in events ==> !r.running
    decreases |events|
  {
    if |events| == 0 then Run(c, true)
    else
      match Step(c, buttons, events[0], eval)
      case Exit => Exit
      case Run(next, running) =>
        match Batch(next, buttons, events[1..], eval)
        case Exit => Exit
        case Run(last, rest) => Run(last, running && rest)
  }

  /** A stop request does not end the pass: the events after it are handled
      as if it had not come, and only the loop's running flag records it. */
  lemma QuitDoesNotEndBatch(c: Calc, buttons: seq<Button>, events: seq<Event>, eval: Evaluator)
    ensures Batch(c, buttons, [Quit] + events, eval) ==
            match Batch(c, buttons, events, eval)
            case Exit => Exit
            case Run(last, _) => Run(last, false)
  {
  }

  /** Any batch of events from a calculator that satisfies the invariant
      leaves one that satisfies it. */
  lemma {:induction false} BatchPreservesInv(c: Calc, buttons: seq<Button>, events: seq<Event>, eval: Evaluator)
    requires Inv(c)
    ensures Batch(c, buttons, events, eval).Run? ==> Inv(Batch(c, buttons, events, eval).next)
    decreases |events|
  {
    if |events| > 0 {
      StepPreservesInv(c, buttons, events[0], eval);
      match Step(c, buttons, events[0], eval)
      case Exit =>
      case Run(next, running) =>
        BatchPreservesInv(next, buttons, events[1..], eval);
    }
  }
}

=== FILE: keyboard.dfy ===
/** The key-down and key-up branches of the main loop. Key-down records the
    tick count of the press and handles the keys that act at once; key-up
    classifies the press as long or short and handles the keys that have a
    long-press meaning, then forgets the press. Tick counts are parameters. */
module Keyboard {
  import opened Prelude
  import opened CalcState
  import opened Display
  import opened Editing
  import opened Evaluation

  const KeyBackspace: int := 8
  const KeyReturn: int := 13
  const KeyEscape: int := 27
  const KeySpace: int := 32
  const Key0: int := 48
  const Key6: int := 54
  const Key8: int := 56
  const Key9: int := 57
  const KeyEquals: int := 61
  const KeyDelete: int := 127
  const KeyF1: int := 1073741882
  const KeyF2: int := 1073741883
  const KeyF3: int := 1073741884
  const KeyF4: int := 1073741885
  const KeyF6: int := 1073741887
  const KeyF7: int := 1073741888
  const KeyF8: int := 1073741889
  const KeyF9: int := 1073741890
  const KeyDown: int := 1073741905
  const KeyUp: int := 1073741906

  /** Key codes typed straight into the buffer on key-down: `+ - * / .` */
  const OperatorKeys: set<int> := {43, 45, 42, 47, 46}
  /** Digit keys handled on key-down: `1 2 3 4 5 7` (the others wait for key-up). */
  const DigitKeys: set<int> := {49, 50, 51, 52, 53, 55}

  /** The keys that act on key-down. */
  predicate HasKeyDownAction(key: int) {
    key in {KeyEscape, KeySpace, KeyReturn, KeyBackspace, KeyDelete, KeyUp, KeyDown} + OperatorKeys + DigitKeys
  }

  /** The keys with a key-up action: those whose long press means something else. */
  const LongPressKeys: set<int> := {Key0, Key6, Key8, Key9, KeyEquals, KeyF1, KeyF2, KeyF3, KeyF4,
                                    KeyF6, KeyF7, KeyF8, KeyF9}

  /** A press is long when it lasted strictly more than this many milliseconds. */
  const LongPressMs: int := 500

  predicate IsLongPress(pressedAt: int, now: int) {
    now - pressedAt > LongPressMs
  }

  /** The key-down actions of every key other than Escape. */
  function KeyDownEdit(c: Calc, key: int, eval: Evaluator): Calc {
    if key == KeySpace then ToggleFullscreen(c)
    else if key == KeyReturn then Calculate(c, eval)
    else if key == KeyBackspace then Backspace(c)
    else if key == KeyDelete then ClearAll(c)
    else if key == KeyUp then ScrollUp(c)
    else if key == KeyDown then ScrollDown(c)
    else if key in OperatorKeys then AppendToken(c, [key as char])
    else if key in DigitKeys then KeyReplaceOrAppend(c, [key as char])
    else c
  }

  /** A key-down event. An auto-repeat changes nothing; otherwise the press
      time is recorded (overwriting an earlier one), Escape stops the main
      loop, the other keys act through `KeyDownEdit`, and a key without a
      key-down action (the long-press keys among them) only leaves its press
      recorded. */
  function OnKeyDown(c: Calc, key: int, repeat: bool, now: int, eval: Evaluator): (r: Effect)
    ensures r.Run?
    ensures repeat ==> r == Run(c, true)
    ensures !repeat ==> r.next.keyPressTimes == c.keyPressTimes[key := now]
    ensures r.running <==> (repeat || key != KeyEscape)
    ensures !repeat && key == KeyEscape ==> r.next == c.(keyPressTimes := c.keyPressTimes[key := now])
    ensures !repeat && !HasKeyDownAction(key) ==> r == Run(c.(keyPressTimes := c.keyPressTimes[key := now]), true)
  {
    if repeat then Run(c, true)
    else
      var pressed := c.(keyPressTimes := c.keyPressTimes[key := now]);
      if key == KeyEscape then Run(pressed, false)
      else Run(KeyDownEdit(pressed, key, eval), true)
  }

  /** The key-up actions, given whether the press was long. Apart from the
      calculation of a short `=`, they touch only the buffer and the flags. */
  function KeyUpEdit(c: Calc, key: int, long: bool, eval: Evaluator): (r: Calc)
    ensures !(key == KeyEquals && !long) ==>
              r == c.(expression := r.expression, justCalculated := r.justCalculated,
                      lastWasError := r.lastWasError)
  {
    if key == Key0 then (if long then AppendOnly(c, ")") else KeyReplaceOrAppend(c, "0"))
    else if key == Key6 then (if long then AppendOnly(c, "^") else KeyReplaceOrAppend(c, "6"))
    else if key == Key8 then (if long then AppendToken(c, "*") else KeyReplaceOrAppend(c, "8"))
    else if key == Key9 then (if long then AppendOnly(c, "(") else KeyReplaceOrAppend(c, "9"))
    else if key == KeyEquals then (if long then AppendToken(c, "+") else Calculate(c, eval))
    else if key == KeyF1 then AppendToken(c, if long then "sqrt(" else "sin(")
    else if key == KeyF2 then AppendToken(c, if long then "**2" else "cos(")
    else if key == KeyF3 then AppendToken(c, if long then "log10(" else "tan(")
    else if key == KeyF4 then
      (if long then AppendToken(c, "log(")
       else KeyReplaceOrAppend(c, PiText).(justCalculated := false, lastWasError := false))
    else if key == KeyF6 then AppendToken(c, "sqrt(")
    else if key == KeyF7 then AppendToken(c, "**2")
    else if key == KeyF8 then AppendToken(c, "log10(")
    else if key == KeyF9 then AppendToken(c, "log(")
    else c
  }

  /** A key-up event at tick `now`. Without a recorded press nothing changes.
      Otherwise the press is classified, the key acts, and the recorded press
      is removed whatever the key was; a key without a key-up action only
      loses its recorded press, and every key-up edit except the calculation
      of a short `=` touches only the buffer and the flags. */
  function OnKeyUp(c: Calc, key: int, now: int, eval: Evaluator): (r: Calc)
    ensures key !in c.keyPressTimes ==> r == c
    ensures key in c.keyPressTimes ==> r.keyPressTimes == c.keyPressTimes - {key}
    ensures r.fullscreen == c.fullscreen
    ensures r.history != c.history ==> key == KeyEquals && key in c.keyPressTimes
    ensures key in c.keyPressTimes && key !in LongPressKeys ==> r == c.(keyPressTimes := c.keyPressTimes - {key})
    ensures key in c.keyPressTimes && !(key == KeyEquals && !IsLongPress(c.keyPressTimes[key], now)) ==>
              r == c.(expression := r.expression, justCalculated := r.justCalculated,
                      lastWasError := r.lastWasError, keyPressTimes := c.keyPressTimes - {key})
  {
    if key !in c.keyPressTimes then c
    else
      var long := IsLongPress(c.keyPressTimes[key], now);
      var edited := KeyUpEdit(c, key, long, eval);
      edited.(keyPressTimes := edited.keyPressTimes - {key})
  }

  /** What each key-up appends, long press against short press. */
  lemma KeyUpTokens(c: Calc, key: int, now: int, eval: Evaluator)
    requires key in c.keyPressTimes
    ensures var long := now - c.keyPressTimes[key] > 500;
            var e := OnKeyUp(c, key, now, eval).expression;
            && (key == Key0 && long ==> e == c.expression + ")")
            && (key == Key6 && long ==> e == c.expression + "^")
            && (key == Key8 && long ==> e == c.expression + "*")
            && (key == Key9 && long ==> e == c.expression + "(")
            && (key == KeyEquals && long ==> e == c.expression + "+")
            && (key == KeyF1 ==> e == c.expression + (if long then "sqrt(" else "sin("))
            && (key == KeyF2 ==> e == c.expression + (if long then "**2" else "cos("))
            && (key == KeyF3 ==> e == c.expression + (if long then "log10(" else "tan("))
            && (key == KeyF4 && long ==> e == c.expression + "log(")
            && (key == KeyF6 ==> e == c.expression + "sqrt(")
            && (key == KeyF7 ==> e == c.expression + "**2")
            && (key == KeyF8 ==> e == c.expression + "log10(")
            && (key == KeyF9 ==> e == c.expression + "log(")
  {
  }

  /** The flags each key-up leaves: long `0`, `6` and `9` keep both, while
      long `8`, long `=` and every function key clear both. */
  lemma KeyUpFlags(c: Calc, key: int, now: int, eval: Evaluator)
    requires key in c.keyPressTimes
    ensures var long := now - c.keyPressTimes[key] > 500;
            var r := OnKeyUp(c, key, now, eval);
            && (key in {Key0, Key6, Key9} && long ==>
                  r.justCalculated == c.justCalculated && r.lastWasError == c.lastWasError)
            && ((key in {Key8, KeyEquals} && long) ||
                key in {KeyF1, KeyF2, KeyF3, KeyF4, KeyF6, KeyF7, KeyF8, KeyF9} ==>
                  !r.justCalculated && !r.lastWasError)
  {
  }

  /** A short press of a key-up digit, or of F4 (which types π), starts a new
      buffer after a result or an error and appends otherwise; a short press
      of `=` calculates. */
  lemma KeyUpShortPress(c: Calc, key: int, now: int, eval: Evaluator)
    requires key in c.keyPressTimes && now - c.keyPressTimes[key] <= 500
    ensures var r := OnKeyUp(c, key, now, eval);
            var d := if key == Key0 then "0" else if key == Key6 then "6"
                     else if key == Key8 then "8" else "9";
            && (key in {Key0, Key6, Key8, Key9} ==>
                  r.expression == (if c.justCalculated || c.lastWasError then d else c.expression + d)
                  && !r.justCalculated && !r.lastWasError)
            && (key == KeyEquals ==> r == Calculate(c, eval).(keyPressTimes := c.keyPressTimes - {key}))
            && (key == KeyF4 ==>
                  r.expression == (if c.justCalculated || c.lastWasError then PiText else c.expression + PiText)
                  && !r.justCalculated && !r.lastWasError)
  {
  }

  /** Key-down typing: operators are appended and clear both flags; the
      key-down digits start a new buffer after a result or an error, and
      leave both flags clear either way. Nothing but the buffer, the flags
      and the recorded press changes. */
  lemma KeyDownTyping(c: Calc, key: int, now: int, eval: Evaluator)
    requires key in OperatorKeys + DigitKeys
    ensures var r := OnKeyDown(c, key, false, now, eval).next;
            && (key in OperatorKeys ==>
                  r.expression == c.expression + [key as char] && !r.justCalculated && !r.lastWasError)
            && (key in DigitKeys ==>
                  r.expression == (if c.justCalculated || c.lastWasError then [key as char]
                                   else c.expression + [key as char])
                  && !r.justCalculated && !r.lastWasError)
            && r.history == c.history && r.scrollOffset == c.scrollOffset
    ensures var p := c.(keyPressTimes := c.keyPressTimes[key := now]);
            var r := OnKeyDown(c, key, false, now, eval).next;
            r == p.(expression := r.expression, justCalculated := false, lastWasError := false)
  {
  }

  /** The buffer commands on key-down: Backspace and Delete trim and clear as
      the `⌫` and `C` buttons do, and Return calculates. */
  lemma KeyDownCommands(c: Calc, now: int, eval: Evaluator)
    ensures var p := c.(keyPressTimes := c.keyPressTimes[KeyBackspace := now]);
            OnKeyDown(c, KeyBackspace, false, now, eval) == Run(Backspace(p), true)
    ensures var p := c.(keyPressTimes := c.keyPressTimes[KeyDelete := now]);
            OnKeyDown(c, KeyDelete, false, now, eval) == Run(ClearAll(p), true)
    ensures var p := c.(keyPressTimes := c.keyPressTimes[KeyReturn := now]);
            OnKeyDown(c, KeyReturn, false, now, eval) == Run(Calculate(p, eval), true)
  {
  }

  /** The view commands on key-down: Space toggles full-screen mode and the
      arrow keys scroll. */
  lemma KeyDownViewCommands(c: Calc, now: int, eval: Evaluator)
    ensures var p := c.(keyPressTimes := c.keyPressTimes[KeySpace := now]);
            OnKeyDown(c, KeySpace, false, now, eval) == Run(ToggleFullscreen(p), true)
    ensures var p := c.(keyPressTimes := c.keyPressTimes[KeyUp := now]);
            OnKeyDown(c, KeyUp, false, now, eval) == Run(ScrollUp(p), true)
    ensures var p := c.(keyPressTimes := c.keyPressTimes[KeyDown := now]);
            OnKeyDown(c, KeyDown, false, now, eval) == Run(ScrollDown(p), true)
  {
  }
}

=== FILE: layout.dfy ===
/** `build_layout_compact` and the mouse hit-test: a 6-row grid of five
    50x30 buttons with 2-pixel gaps, plus a sixth column of six buttons. */
module Layout {
  import opened Prelude

  datatype Rect = Rect(x: int, y: int, w: int, h: int)

  /** An on-screen button: where it is, its caption and the value it sends. */
  datatype Button = Button(rect: Rect, text: string, value: string)

  const BtnW: int := 50
  const BtnH: int := 30
  const StartX: int := 3
  const StartY: int := 125
  const Gap: int := 2

  /** Columns 1-5, row by row, as (caption, value) pairs. */
  const MainRows: seq<seq<(string, string)>> := [
    [("x2", "x\U{00B2}"), ("xy", "x\U{02B8}"), ("log", "log"), ("ln", "ln"), ("Bk", "\U{232B}")],
    [("(", "("), (")", ")"), ("C", "C"), ("CE", "CE"), ("sq", "\U{221A}")],
    [("7", "7"), ("8", "8"), ("9", "9"), ("/", "/"), ("Gr", "Gr")],
    [("4", "4"), ("5", "5"), ("6", "6"), ("*", "*"), ("mod", "mod")],
    [("1", "1"), ("2", "2"), ("3", "3"), ("-", "-"), ("1/x", "1/x")],
    [("0", "0"), (".", "."), ("=", "="), ("+", "+"), ("!", "!")]
  ]

  /** Column 6, top to bottom; the last slot has an empty caption and gets no button. */
  const Column6: seq<(string, string)> := [
    ("OFF", "OFF"), ("sin", "sin"), ("cos", "cos"), ("tan", "tan"),
    ("pi", "\U{03C0}"), ("e", "e"), ("", "")
  ]

  const ButtonCount: nat := 36

  /** The rectangle of the grid cell in row `row` and column `col` (both from zero). */
  function CellRect(row: int, col: int): Rect {
    Rect(StartX + col * (BtnW + Gap), StartY + row * (BtnH + Gap), BtnW, BtnH)
  }

  /** Grid cell of the i-th button built: the first 30 fill columns 0-4 row
      by row, the last six fill column 5 from the top. */
  function Cell(i: nat): (rc: (nat, nat))
    requires i < ButtonCount
    ensures rc.0 < 6 && rc.1 < 6
  {
    if i < 30 then (i / 5, i % 5) else (i - 30, 5)
  }

  /** The i-th button `build_layout_compact` creates, in closed form. */
  function LayoutButton(i: nat): Button
    requires i < ButtonCount
  {
    var (row, col) := Cell(i);
    var entry := if i < 30 then MainRows[row][col] else Column6[row];
    Button(CellRect(row, col), entry.0, entry.1)
  }

  predicate IsLayout(buttons: seq<Button>) {
    |buttons| == ButtonCount && forall i :: 0 <= i < ButtonCount ==> buttons[i] == LayoutButton(i)
  }

  /** `build_layout_compact`: the five-column table row by row, then the
      sixth column, skipping its empty slot. */
  method BuildLayoutCompact() returns (buttons: seq<Button>)
    ensures IsLayout(buttons)
  {
    buttons := BuildMainGrid();
    var col6X := StartX + 5 * (BtnW + Gap);
    var r := 0;
    while r < |Column6|
      invariant 0 <= r <= 7
      invariant |buttons| == 30 + Min(r, 6)
      invariant forall i :: 0 <= i < |buttons| ==> buttons[i] == LayoutButton(i)
    {
      var entry := Column6[r];
      if entry.0 != "" {
        var y := StartY + r * (BtnH + Gap);
        buttons := buttons + [Button(Rect(col6X, y, BtnW, BtnH), entry.0, entry.1)];
      }
      r := r + 1;
    }
  }

  /** The first loop of `build_layout_compact`: columns 1-5, row by row. */
  method BuildMainGrid() returns (buttons: seq<Button>)
    ensures |buttons| == 30
    ensures forall i :: 0 <= i < 30 ==> buttons[i] == LayoutButton(i)
  {
    buttons := [];
    var r := 0;
    while r < |MainRows|
      invariant 0 <= r <= 6
      invariant |buttons| == 5 * r
      invariant forall i :: 0 <= i < |buttons| ==> buttons[i] == LayoutButton(i)
    {
      var row := MainRows[r];
      var c := 0;
      while c < |row|
        invariant 0 <= c <= 5
        invariant |buttons| == 5 * r + c
        invariant forall i :: 0 <= i < |buttons| ==> buttons[i] == LayoutButton(i)
      {
        var x := StartX + c * (BtnW + Gap);
        var y := StartY + r * (BtnH + Gap);
        assert Cell(5 * r + c) == (r, c);
        buttons := buttons + [Button(Rect(x, y, BtnW, BtnH), row[c].0, row[c].1)];
        c := c + 1;
      }
      r := r + 1;
    }
  }

  /** The inclusive hit-test of the mouse handler: both edges belong to the button. */
  predicate Contains(b: Button, x: int, y: int) {
    b.rect.x <= x <= b.rect.x + b.rect.w && b.rect.y <= y <= b.rect.y + b.rect.h
  }

  /** The index of the first button containing the point, as the handler's
      loop with `break` finds it. */
  function FindHit(buttons: seq<Button>, x: int, y: int): (r: Option<nat>)
    ensures r.Some? ==> r.value < |buttons| && Contains(buttons[r.value], x, y)
    ensures r.Some? ==> forall j :: 0 <= j < r.value ==> !Contains(buttons[j], x, y)
    ensures r.None? ==> forall j :: 0 <= j < |buttons| ==> !Contains(buttons[j], x, y)
  {
    if |buttons| == 0 then None
    else if Contains(buttons[0], x, y) then Some(0)
    else
      match FindHit(buttons[1..], x, y)
      case None => None
      case Some(k) => Some(k + 1)
  }

  /** The button under a point computed arithmetically from the grid: which
      column and row band the point is in, and whether it falls in a gap. */
  function CellAt(x: int, y: int): (r: Option<nat>)
    ensures r.Some? ==> r.value < ButtonCount
  {
    if x < StartX || y < StartY then None
    else
      var col := (x - StartX) / (BtnW + Gap);
      var row := (y - StartY) / (BtnH + Gap);
      if (x - StartX) % (BtnW + Gap) > BtnW || (y - StartY) % (BtnH + Gap) > BtnH then None
      else if row < 6 && col < 5 then Some(row * 5 + col)
      else if row < 6 && col == 5 then Some(30 + row)
      else None
  }

  /** A point lies in the closed band [q*d, q*d + w] exactly when division by d
      yields q with a remainder of at most w. */
  lemma BandDivision(a: int, q: int, d: int, w: int)
    requires 0 < d && 0 <= w < d
    ensures q * d <= a <= q * d + w <==> (a / d == q && a % d <= w)
  {
    if q * d <= a <= q * d + w {
      var rem := a - q * d;
      assert a == d * q + rem && 0 <= rem < d;
      DivModUnique(a, d, q, rem);
    }
  }

  lemma DivModUnique(a: int, d: int, q: int, rem: int)
    requires 0 < d && 0 <= rem < d && a == d * q + rem
    ensures a / d == q && a % d == rem
  {
    var q' := a / d;
    var rem' := a % d;
    assert d * (q - q') == rem' - rem;
    if q' < q {
      MulAtLeast(d, q - q');
    } else if q' > q {
      MulAtLeast(d, q' - q);
    }
  }

  lemma MulAtLeast(d: int, k: int)
    requires d > 0 && k >= 1
    ensures d * k >= d
  {
  }

  /** A layout button contains a point exactly when the grid arithmetic says
      the point is in that button's cell. */
  lemma {:induction false} ContainsIffCellAt(i: nat, x: int, y: int)
    requires i < ButtonCount
    ensures Contains(LayoutButton(i), x, y) <==> CellAt(x, y) == Some(i)
  {
    var row, col := Cell(i).0, Cell(i).1;
    BandDivision(x - StartX, col, BtnW + Gap, BtnW);
    BandDivision(y - StartY, row, BtnH + Gap, BtnH);
    if CellAt(x, y) == Some(i) {
      var col' := (x - StartX) / (BtnW + Gap);
      var row' := (y - StartY) / (BtnH + Gap);
      if i < 30 {
        assert row' * 5 + col' == i && col' < 5;
        assert row' == i / 5 && col' == i % 5;
      } else {
        assert col' == 5 && row' == i - 30;
      }
    }
  }

  /** On the layout the handler's scan and the grid arithmetic agree: the
      click reaches the button of the cell under the point, or none in a gap. */
  lemma {:induction false} HitTestMatchesGrid(buttons: seq<Button>, x: int, y: int)
    requires IsLayout(buttons)
    ensures FindHit(buttons, x, y) == CellAt(x, y)
  {
    match FindHit(buttons, x, y)
    case Some(k) =>
      ContainsIffCellAt(k, x, y);
    case None =>
      if CellAt(x, y).Some? {
        var i := CellAt(x, y).value;
        assert buttons[i] == LayoutButton(i);
        ContainsIffCellAt(i, x, y);
        assert false;
      }
  }

  /** No point lies in two layout buttons, edges included: the 2-pixel gaps
      keep the inclusive rectangles apart, so the first hit is the only hit. */
  lemma ButtonsDisjoint(i: nat, j: nat, x: int, y: int)
    requires i < ButtonCount && j < ButtonCount && i != j
    ensures !(Contains(LayoutButton(i), x, y) && Contains(LayoutButton(j), x, y))
  {
    ContainsIffCellAt(i, x, y);
    ContainsIffCellAt(j, x, y);
  }

  /** Every button fits in the 320x320 window below the 115-pixel-high display
      box that starts at y = 3. */
  lemma LayoutBelowDisplay(i: nat)
    requires i < ButtonCount
    ensures var r := LayoutButton(i).rect;
            && 0 <= r.x && r.x + r.w < 320
            && 3 + 115 < r.y && r.y + r.h < 320
  {
  }
}

=== FILE: prelude.dfy ===
/** Small helpers shared by the calculator model: an option type and the
    handful of Python built-ins (max, min, slicing, str.isdigit) whose exact
    semantics the editing logic depends on. */
module Prelude {

  datatype Option<+T> = None | Some(value: T)

  function Max(a: int, b: int): (r: int)
    ensures r >= a && r >= b
    ensures r == a || r == b
  {
    if a >= b then a else b
  }

  function Min(a: int, b: int): (r: int)
    ensures r <= a && r <= b
    ensures r == a || r == b
  {
    if a <= b then a else b
  }

  /** How Python normalises one bound of `s[i:j]` for a sequence of length n:
      a negative bound counts from the end, and the result is clipped to [0, n]. */
  function SliceBound(i: int, n: nat): (k: nat)
    ensures k <= n
    ensures 0 <= i <= n ==> k == i
    ensures i < 0 && -i <= n ==> k == n + i
  {
    if i < 0 then (if n + i < 0 then 0 else n + i)
    else if i > n then n
    else i
  }

  /** Python's `s[i:j]` (step 1) on an arbitrary pair of integer bounds. */
  function PySlice<T>(s: seq<T>, i: int, j: int): (r: seq<T>)
    ensures 0 <= i <= j <= |s| ==> r == s[i..j]
    ensures 0 <= j <= i ==> r == []
  {
    var a := SliceBound(i, |s|);
    var b := SliceBound(j, |s|);
    if b <= a then [] else s[a..b]
  }

  /** Python's `s[:-1]`: every element but the last; the empty sequence stays empty. */
  function DropLast<T>(s: seq<T>): (r: seq<T>)
    ensures |s| == 0 ==> r == []
    ensures |s| > 0 ==> r + [s[|s| - 1]] == s
  {
    PySlice(s, 0, -1)
  }

  predicate IsAsciiDigit(ch: char) {
    '0' <= ch <= '9'
  }

  /** Python's `str.isdigit`, restricted to the ASCII digits: true exactly for
      non-empty strings made only of digits. */
  predicate IsDigits(s: string) {
    |s| > 0 && forall i :: 0 <= i < |s| ==> IsAsciiDigit(s[i])
  }
}
